=== FILE: README.md ===
# Incremental reachability index: event processing and the partition store

This project models, in Dafny, the local and sequential core of the agh-pp incremental
reachability index. The graph of vertices and permission-carrying edges is split into zones.
Each zone stores its part of the graph. Each local vertex keeps an index of its *effective
parents* and *effective children*: for every vertex reachable upwards or downwards, the set of
direct neighbours through which it is reached. Changes travel between vertices as events.
Processing one event updates one map of one vertex's index. When the visible state changes,
the event is re-emitted once to every neighbour in the relevant direction, carrying the full
current key set of the map.

The model has three parts:

- **EdgeId** (`identifiers.dfy`): an immutable pair with a lexicographic `compareTo`. It is
  proved to be a strict total order that agrees with structural equality, for any vertex
  comparator that is one. `VertexId`'s own ordering is not part of this model, so it is a
  parameter with its laws stated as a precondition.
- **Graph** (`graph.dfy`): one zone's partition store. It is a class with four mutable maps:
  the vertices, the edges by id, and the adjacency indexes by source and by destination.
  `Valid()` links the edge map to both adjacency indexes, and every mutator preserves it.
  - `AddVertex`, `AddEdge`, `RemoveEdge` and `SetPermissions` update the maps in place.
  - The queries are functions over that state.
  - Errors the source throws are returned as a `GraphError`.
- **EventProcessor** (`event_processor.dfy`): a class that holds the graph, the outbox of
  posted events and the trace of instrumentation notifications.
  - `Process` dispatches on the event type.
  - `ProcessParent` and `ProcessChild` run the add path (a loop over the event's subjects) or
    the remove path on the vertex's index.
  - `PropagateEvent` posts the forwarded event to each recipient in a loop.

  Each method is proved against a pure description of one step, in two parts:
  - `Updated` and `Changes` in `index_updates.dfy` give the entries that exist afterwards,
    when an entry is garbage-collected, and whether the propagate flag is raised;
  - `Step` in `event_processor.dfy` adds who receives the forwarded event (`Recipients`),
    what it carries (`Forwarded`), and which notifications accompany it (`ForkNotes`,
    `NoteFor`).

  Lemmas about that description state the properties of the algorithm: it is idempotent under
  re-delivery, the flag is raised exactly when the visible state changes, and posting is
  batched one event per recipient.

Services the processor calls are modelled as follows:

- The global zone identifier is a constructor argument of the graph, absent when zone affinity
  is not enforced.
- `Inbox.post` appends to the `outbox` sequence.
- `Instrumentation.notify` appends to the `notifications` sequence.
- `EffectiveVertex.recalculatePermissions` is an uninterpreted function, `Recalculator`, held
  by the processor.

## Model

| member | source | states |
|---|---|---|
| Identifiers.Of | src/main/java/com/github/kjarosh/agh/pp/graph/model/EdgeId.java:19-21 | `of(f, t)` has source `f` and destination `t` |
| Identifiers.EdgeId.CompareTo | src/main/java/com/github/kjarosh/agh/pp/graph/model/EdgeId.java:24-31 | the comparison is 0 exactly when both the `from` and the `to` comparisons are 0 |
| Identifiers.CompareToIsLexicographic | src/main/java/com/github/kjarosh/agh/pp/graph/model/EdgeId.java:24-31 | the sign of `compareTo` is the sign of the `from` comparison when the sources differ, otherwise the sign of the `to` comparison |
| Identifiers.CompareToZeroIffEqual | src/main/java/com/github/kjarosh/agh/pp/graph/model/EdgeId.java:12-31 | `compareTo` is 0 exactly for structurally equal ids, so it agrees with the generated `equals` |
| Identifiers.CompareToAntisymmetric | src/main/java/com/github/kjarosh/agh/pp/graph/model/EdgeId.java:24-31 | `sign(a.compareTo(b)) == -sign(b.compareTo(a))` |
| Identifiers.CompareToTransitive | src/main/java/com/github/kjarosh/agh/pp/graph/model/EdgeId.java:24-31 | `a < b` and `b < c` give `a < c` |
| Identifiers.CompareToIsTotalComparator | src/main/java/com/github/kjarosh/agh/pp/graph/model/EdgeId.java:15-31 | the EdgeId comparison satisfies all the comparator laws the vertex comparison satisfies, so it can order the sorted adjacency sets |
| Edges.Edge.Id | src/main/java/com/github/kjarosh/agh/pp/graph/model/Graph.java:78 | an edge's id is the pair of its source and destination |
| Graphs.Graph.constructor | src/main/java/com/github/kjarosh/agh/pp/graph/model/Graph.java:35-37 | a new store is empty in all four maps and satisfies `Valid()` |
| Graphs.Graph.AddVertex | src/main/java/com/github/kjarosh/agh/pp/graph/model/Graph.java:48-54 | succeeds iff no zone is configured or the vertex's owner is the local zone; a failure changes nothing; an id already present keeps its stored vertex (putIfAbsent); edges untouched; `Valid()` kept |
| Graphs.Graph.HasVertex | src/main/java/com/github/kjarosh/agh/pp/graph/model/Graph.java:56-58 | true exactly when `GetVertex` succeeds |
| Graphs.Graph.HasEdge | src/main/java/com/github/kjarosh/agh/pp/graph/model/Graph.java:60-62 | an id is stored exactly when the source's adjacency set holds an edge with that id |
| Graphs.Graph.GetVertex | src/main/java/com/github/kjarosh/agh/pp/graph/model/Graph.java:64-71 | fails with `VertexNotFound(id)` iff the id is absent; otherwise returns the stored vertex, whose id is `id` |
| Graphs.Graph.AddEdge | src/main/java/com/github/kjarosh/agh/pp/graph/model/Graph.java:73-81 | fails with `DanglingEdge` and no change iff neither endpoint is local; otherwise the edge is stored under its id and added to the source's and destination's adjacency sets (created when missing); vertices untouched; `Valid()` kept |
| Graphs.InsertKeepsIndexed | src/main/java/com/github/kjarosh/agh/pp/graph/model/Graph.java:78-80 | storing a new edge with a local endpoint and adding it to both adjacency sets keeps both indexes exact |
| Graphs.Graph.RemoveEdge | src/main/java/com/github/kjarosh/agh/pp/graph/model/Graph.java:83-89 | no edge, or an edge whose id is not stored while both endpoints have adjacency sets (a repeated removal): nothing changes; a stored edge: it leaves the edge map and exactly its two adjacency sets, and every other edge stays where it was; `Valid()` kept |
| Graphs.DeleteKeepsIndexed | src/main/java/com/github/kjarosh/agh/pp/graph/model/Graph.java:85-87 | a stored edge has both adjacency sets, and deleting it from the edge map and from both sets keeps both indexes exact |
| Graphs.Graph.GetEdge | src/main/java/com/github/kjarosh/agh/pp/graph/model/Graph.java:91-93 | returns an edge iff `HasEdge`; that edge has the id's endpoints and is the one stored |
| Graphs.Graph.SetPermissions | src/main/java/com/github/kjarosh/agh/pp/graph/model/Graph.java:95-103 | fails with `EdgeNotFound` iff the id is absent, changing nothing; otherwise the edge under that id has the same endpoints and the new permissions, the set of ids is unchanged, every other edge is unchanged, and both adjacency sets swap the old edge for the new one |
| Graphs.Adjacent | src/main/java/com/github/kjarosh/agh/pp/graph/model/Graph.java:105-111 | a vertex with no recorded set gets the empty set (getOrDefault) |
| Graphs.Graph.GetEdgesBySource | src/main/java/com/github/kjarosh/agh/pp/graph/model/Graph.java:105-107 | exactly the stored edges whose source is the vertex, and so empty when none were recorded |
| Graphs.Graph.GetEdgesByDestination | src/main/java/com/github/kjarosh/agh/pp/graph/model/Graph.java:109-111 | exactly the stored edges whose destination is the vertex |
| Graphs.Graph.AllZones | src/main/java/com/github/kjarosh/agh/pp/graph/model/Graph.java:121-132 | every vertex owner and both endpoint owners of every edge are reported, and every reported zone is one of those |
| Graphs.LocalZoneInAllZones | src/main/java/com/github/kjarosh/agh/pp/graph/model/Graph.java:121-132 | with a zone configured, the local zone is reported exactly when the partition holds a vertex |
| Index.EffectiveVertex.AddIntermediateVertex | src/main/java/com/github/kjarosh/agh/pp/index/EventProcessor.java:94 | the mediating set gains the vertex, and the change callback fires exactly when the set grew |
| Index.EffectiveVertex.RemoveIntermediateVertex | src/main/java/com/github/kjarosh/agh/pp/index/EventProcessor.java:86 | the mediating set loses the vertex, and the change callback fires exactly when the set shrank |
| Index.EffectiveVertex.RecalculatePermissions | src/main/java/com/github/kjarosh/agh/pp/index/EventProcessor.java:127 | a recalculation never changes the mediating set |
| Index.VertexIndex.GetEffective | src/main/java/com/github/kjarosh/agh/pp/index/EventProcessor.java:85 | present exactly when the map has the subject, and then the stored entry |
| Index.VertexIndex.GetOrAddEffective | src/main/java/com/github/kjarosh/agh/pp/index/EventProcessor.java:93 | `created` iff the subject was absent, in which case an empty entry is added; returns the stored entry; the other map is untouched |
| Index.VertexIndex.RemoveEffective | src/main/java/com/github/kjarosh/agh/pp/index/EventProcessor.java:88 | the row is deleted and nothing else changes |
| Index.VertexIndex.SetEffective | src/main/java/com/github/kjarosh/agh/pp/index/EventProcessor.java:94 | the entry the source mutates in place is written back under its subject; nothing else changes |
| Events.Event.AllSubjects | src/main/java/com/github/kjarosh/agh/pp/index/EventProcessor.java:92 | the subjects to process are the event's subjects together with the effective set it carries |
| Events.Forwarded | src/main/java/com/github/kjarosh/agh/pp/index/EventProcessor.java:159-165 | the forwarded event keeps the trace, type and original sender; its sender is the forwarding vertex and its effective set is the current key set |
| Events.ForkNotes | src/main/java/com/github/kjarosh/agh/pp/index/EventProcessor.java:154-157 | a single fork notification carrying the recipient count exactly when there is a recipient, otherwise none |
| Events.FansOutExtend | src/main/java/com/github/kjarosh/agh/pp/index/EventProcessor.java:158-168 | posting to one more new recipient extends a fan-out |
| Events.FanOutSize | src/main/java/com/github/kjarosh/agh/pp/index/EventProcessor.java:158-168 | a fan-out posts exactly as many events as there are distinct recipients |
| IndexUpdates.AddSubjectsStep | src/main/java/com/github/kjarosh/agh/pp/index/EventProcessor.java:92-95 | handling one more subject changes only that subject's entry; the propagate flag is raised when that entry is created or its mediating set grows |
| IndexUpdates.MarkedAsStepSize | src/main/java/com/github/kjarosh/agh/pp/index/EventProcessor.java:127-135 | the count of subjects classified DIRTY (or CLEANED) grows by one exactly for a new subject with that classification |
| IndexUpdates.AddSubjectsRecordsSender | src/main/java/com/github/kjarosh/agh/pp/index/EventProcessor.java:92-95 | after the add path every subject has an entry whose mediating set is the old one plus the sender; other entries are untouched |
| IndexUpdates.AddChangesIffMediatorsChange | src/main/java/com/github/kjarosh/agh/pp/index/EventProcessor.java:93-98 | the add path raises the flag exactly when some subject gained an entry or a mediating neighbour |
| IndexUpdates.RedeliveryChangesNothing | src/main/java/com/github/kjarosh/agh/pp/index/EventProcessor.java:92-95 | an identical add event delivered again raises no flag; on the parent side it leaves the map unchanged |
| IndexUpdates.RemoveSenderTouchesOnlyKey | src/main/java/com/github/kjarosh/agh/pp/index/EventProcessor.java:84-90 | the remove path touches only the original sender's entry and removes only the sender from it; the entry is deleted once its set is empty; without an entry the map is unchanged |
| IndexUpdates.RemoveChangesIffMediatorsChange | src/main/java/com/github/kjarosh/agh/pp/index/EventProcessor.java:84-90 | while no entry is empty, the remove path raises the flag exactly when the visible state changes |
| IndexUpdates.UpdatedKeepsEntriesNonEmpty | src/main/java/com/github/kjarosh/agh/pp/index/EventProcessor.java:83-96 | both paths keep the rule that no entry has an empty mediating set |
| IndexUpdates.ReplayTracksMediators | src/main/java/com/github/kjarosh/agh/pp/index/EventProcessor.java:84-95 | after any sequence of adds and removes for one subject, its entry exists iff the resulting mediating set is non-empty, and then holds exactly that set; other entries are untouched |
| Processing.MarksCountStep | src/main/java/com/github/kjarosh/agh/pp/index/EventProcessor.java:127-135 | appending one subject's DIRTY or CLEANED notification keeps one notification per subject of each classification |
| Processing.NoteFor | src/main/java/com/github/kjarosh/agh/pp/index/EventProcessor.java:129-135 | DIRTY gives one marked-dirty notification and CLEANED one marked-clean notification for the processed vertex and event; UNCHANGED gives none |
| Processing.SideOf | src/main/java/com/github/kjarosh/agh/pp/index/EventProcessor.java:42-66 | CHILD_CHANGE and CHILD_REMOVE select the child map, the other two types the parent map |
| Processing.IsRemoval | src/main/java/com/github/kjarosh/agh/pp/index/EventProcessor.java:42-66 | CHILD_REMOVE and PARENT_REMOVE take the remove path, the other two types the add path |
| Processing.DispatchIsInjective | src/main/java/com/github/kjarosh/agh/pp/index/EventProcessor.java:42-66 | no two event types select the same map and path, so each of the four cases is handled separately |
| Processing.QuietStepPostsNothing | src/main/java/com/github/kjarosh/agh/pp/index/EventProcessor.java:98-105 | when the flag stays down, nothing is posted and no fork notification is given |
| Processing.ForkAnnouncesFanOut | src/main/java/com/github/kjarosh/agh/pp/index/EventProcessor.java:154-168 | a fork notification, carrying the number of posts, is given exactly when something is posted |
| Processing.RedeliveryPostsNothing | src/main/java/com/github/kjarosh/agh/pp/index/EventProcessor.java:92-98 | processing the same add event twice in a row posts nothing the second time |
| Processing.SkipMarksNothing | src/main/java/com/github/kjarosh/agh/pp/index/EventProcessor.java:91-96 | without recomputation (the parent side) no DIRTY or CLEANED notification is given |
| Processing.EventProcessor.Recipients | src/main/java/com/github/kjarosh/agh/pp/index/EventProcessor.java:99-104 | parent events go to exactly the sources of stored edges into the vertex, and child events (lines 140-145) to exactly the destinations of stored edges out of it |
| Processing.EventProcessor.Process | src/main/java/com/github/kjarosh/agh/pp/index/EventProcessor.java:37-75 | start notification first, then the path selected by the type (CHILD_* → child, PARENT_* → parent, *_REMOVE → remove), then an end notification on success or a fail notification with the error returned when the vertex is not local; the other map is untouched; an index without empty entries keeps none |
| Processing.EventProcessor.ProcessParent | src/main/java/com/github/kjarosh/agh/pp/index/EventProcessor.java:77-106 | fails with `VertexNotFound` and no change for a non-local vertex; otherwise the parent map takes the add or remove update, nothing is recomputed, the forwarded event goes to each recipient once iff the flag was raised, and an index without empty entries keeps none |
| Processing.EventProcessor.ProcessChild | src/main/java/com/github/kjarosh/agh/pp/index/EventProcessor.java:108-147 | as `ProcessParent` on the child map, with permissions recomputed for each subject over the edges entering the vertex and one DIRTY or CLEANED notification for each subject so classified; an index without empty entries keeps none |
| Processing.EventProcessor.RemoveSenderAt | src/main/java/com/github/kjarosh/agh/pp/index/EventProcessor.java:115-122 | the map becomes the remove-path update of the original sender's entry; the flag is raised iff the sender was removed; the other map is untouched |
| Processing.EventProcessor.AddSubjectsAt | src/main/java/com/github/kjarosh/agh/pp/index/EventProcessor.java:123-136 | the map becomes the add-path update for all subjects; the flag is raised iff some entry was created or grew; the appended notifications count DIRTY and CLEANED per subject |
| Processing.EventProcessor.AddSubjectAt | src/main/java/com/github/kjarosh/agh/pp/index/EventProcessor.java:125-135 | one subject: its entry is fetched or created, gains the sender and is recomputed; the change flag and the notification follow |
| Processing.EventProcessor.PropagateEvent | src/main/java/com/github/kjarosh/agh/pp/index/EventProcessor.java:149-169 | a fork notification iff there is a recipient, then exactly one forwarded event posted to each distinct recipient and to nobody else |

## Left out

- Graphs.Graph.AddEdge: requires that no edge with the same id is stored. With a stored id, the source overwrites the edge map but adds to sets ordered by `Edge`'s own comparison, which is not part of this model. `SetPermissions` removes the old edge before adding the new one and so stays within this precondition.
- Graphs.Graph.RemoveEdge: requires that the given edge is either the one stored under its id, or has an id that is not stored and endpoints that both have adjacency sets (then it is a no-op). Excluded are an edge whose endpoint has no adjacency set, where the source dereferences a missing set, and an edge whose id is stored with other permissions, whose outcome depends on `Edge`'s own comparison, which is not part of this model.
- Processing.EventProcessor.AddSubjectsAt: the DIRTY and CLEANED notifications are stated as a count per classification, not in order. The source visits the subjects in the iteration order of the set `getAllSubjects` returns, which the model leaves open.
- Processing.EventProcessor.Process: the `default` branch that throws `AssertionError` has no counterpart, because the event type is a closed datatype with exactly four cases.
- Concurrency is not modelled. `ConcurrentHashMap`, `ConcurrentSkipListSet` and the `AtomicBoolean` flag become plain maps, sets and a boolean.
- The effective key set handed to forwarded events is a live `keySet()` view in the source. The model passes its value at propagation time, so later index changes seen through the view are not captured.
- The recipient set is computed before the index update rather than after. Processing never changes the graph, so the value is the same.
- `Event.getAllSubjects` and the `Event` builder are not part of this model. The subjects are taken to be `subjects` together with `effectiveVertices`, and a built event without subjects is taken to have none.
- `EffectiveVertex.recalculatePermissions` and the `Permissions` combination rule are not part of this model. The recalculation is an arbitrary function of the entry and the edge set, assumed only not to touch the mediating set.
- Index entries are values written back into the map, so the aliasing of the mutable `EffectiveVertex` objects is not modelled.
- Exceptions other than the missing vertex (for example from `recalculatePermissions`) are not modelled.
- The `log.warn`/`log.info` lines, `Graph.serialize`/`deserialize`/`toString`, `allVertices` and `allEdges` are not modelled, since they are output or plain views.
- ConstantLoadClientMain.java, LoadSimulationRequestDto.java and BulkVertexCreationRequestDtoTest.java are not part of this model. They are CLI, I/O and JSON data holders.
- The iteration order over subjects and recipients is not modelled. The loops may pick any element, and every contract holds for every order.

=== FILE: edges.dfy ===
/** Directed edges of the graph (graph/model/Edge). */
module Edges {
  import opened Identifiers

  /**
   * The permission value carried by an edge. Its combination rule is not part of this
   * model; permissions are only stored, replaced and handed to the recalculation function.
   */
  type Permissions = string

  /** An immutable directed edge: updates replace it rather than mutate it. */
  datatype Edge = Edge(src: VertexId, dst: VertexId, permissions: Permissions) {

    /** Edge.id(): the identity of the edge is the pair of its endpoints. */
    function Id(): (id: EdgeId)
      ensures id.from == src && id.to == dst
    {
      Of(src, dst)
    }
  }
}

=== FILE: event_processor.dfy ===
/**
 * The propagation engine (index/EventProcessor): consumes one change event addressed to a
 * vertex, updates that vertex's index and, when the visible state changed, re-emits the
 * event to the vertex's neighbours with the full current effective key set.
 */
module Processing {
  import opened Wrappers
  import opened Identifiers
  import opened Index
  import opened Graphs
  import opened Events
  import opened IndexUpdates

  /** The map an event addresses: child events the effective children, parent events the parents. */
  function SideOf(t: EventType): (side: Side)
    ensures side == Children <==> t == ChildChange || t == ChildRemove
  {
    match t
    case ChildChange => Children
    case ChildRemove => Children
    case ParentChange => Parents
    case ParentRemove => Parents
  }

  /** Whether an event takes the remove path. */
  function IsRemoval(t: EventType): (delete: bool)
    ensures delete <==> t == ChildRemove || t == ParentRemove
  {
    match t
    case ChildChange => false
    case ParentChange => false
    case ChildRemove => true
    case ParentRemove => true
  }

  /** The dispatch tells the four event types apart: each selects its own side and path. */
  lemma DispatchIsInjective(t: EventType, u: EventType)
    requires SideOf(t) == SideOf(u) && IsRemoval(t) == IsRemoval(u)
    ensures t == u
  {
  }

  /**
   * The dirty and clean notifications of the add path: one per recomputed subject whose
   * classification is DIRTY or CLEANED, in some order; none on the remove path.
   */
  ghost predicate RecalculationNotes(marks: seq<Notification>, id: VertexId, event: Event, before: EntryMap, delete: bool, rc: Recomputation) {
    if delete then marks == []
    else MarksCount(marks, id, event, before, event.AllSubjects(), rc)
  }

  /** How many times `n` occurs in `notes`. */
  function Occurrences(notes: seq<Notification>, n: Notification): (count: nat) {
    if notes == [] then 0
    else Occurrences(notes[..|notes| - 1], n) + (if notes[|notes| - 1] == n then 1 else 0)
  }

  lemma {:induction false} OccurrencesAppend(a: seq<Notification>, b: seq<Notification>, n: Notification)
    ensures Occurrences(a + b, n) == Occurrences(a, n) + Occurrences(b, n)
    decreases |b|
  {
    if b == [] {
      assert a + b == a;
    } else {
      assert (a + b)[..|a + b| - 1] == a + b[..|b| - 1];
      OccurrencesAppend(a, b[..|b| - 1], n);
    }
  }

  /** `marks` holds one DIRTY note per subject of `done` classified DIRTY, one CLEANED note per CLEANED one, and nothing else. */
  ghost predicate MarksCount(marks: seq<Notification>, id: VertexId, event: Event, before: EntryMap, done: set<VertexId>, rc: Recomputation) {
    && Occurrences(marks, MarkedDirty(id, event)) == |MarkedAs(before, done, event.sender, rc, Dirty)|
    && Occurrences(marks, MarkedClean(id, event)) == |MarkedAs(before, done, event.sender, rc, Cleaned)|
    && |marks| == Occurrences(marks, MarkedDirty(id, event)) + Occurrences(marks, MarkedClean(id, event))
  }

  lemma MarksCountStep(marks: seq<Notification>, id: VertexId, event: Event, before: EntryMap, done: set<VertexId>, s: VertexId, rc: Recomputation)
    requires s !in done
    requires MarksCount(marks, id, event, before, done, rc)
    ensures MarksCount(marks + NoteFor(Settle(before, s, event.sender, rc).1, id, event), id, event, before, done + {s}, rc)
  {
    var note := NoteFor(Settle(before, s, event.sender, rc).1, id, event);
    MarkedAsStepSize(before, done, s, event.sender, rc, Dirty);
    MarkedAsStepSize(before, done, s, event.sender, rc, Cleaned);
    OccurrencesAppend(marks, note, MarkedDirty(id, event));
    OccurrencesAppend(marks, note, MarkedClean(id, event));
  }

  /** A step whose propagate flag stays down posts nothing and adds no fork notification. */
  lemma QuietStepPostsNothing(id: VertexId, event: Event, delete: bool, rc: Recomputation, recipients: set<VertexId>,
                              before: EntryMap, after: EntryMap, posted: seq<Post>, notes: seq<Notification>, marks: seq<Notification>)
    requires Step(id, event, delete, rc, recipients, before, after, posted, notes, marks)
    requires !Changes(before, event, delete)
    ensures posted == [] && notes == marks
  {
    FanOutSize(posted, {}, Forwarded(event, id, after.Keys));
  }

  /**
   * The fork notification announces the fan-out: it follows the recalculation notes exactly
   * when something is posted, and carries the number of posts.
   */
  lemma ForkAnnouncesFanOut(id: VertexId, event: Event, delete: bool, rc: Recomputation, recipients: set<VertexId>,
                            before: EntryMap, after: EntryMap, posted: seq<Post>, notes: seq<Notification>, marks: seq<Notification>)
    requires Step(id, event, delete, rc, recipients, before, after, posted, notes, marks)
    ensures posted == [] ==> notes == marks
    ensures posted != [] ==> notes == marks + [ForkEvent(id, event, |posted|)]
  {
    var targets := if Changes(before, event, delete) then recipients else {};
    FanOutSize(posted, targets, Forwarded(event, id, after.Keys));
    if posted == [] {
      assert targets == {};
    }
  }

  /**
   * Re-delivery: processing the same add event a second time, right after the first, raises
   * no flag, so it posts nothing and notifies no fork.
   */
  lemma RedeliveryPostsNothing(id: VertexId, event: Event, rc: Recomputation, rc': Recomputation, recipients: set<VertexId>,
                               before: EntryMap, mid: EntryMap, after: EntryMap,
                               posted: seq<Post>, notes: seq<Notification>, marks: seq<Notification>,
                               posted': seq<Post>, notes': seq<Notification>, marks': seq<Notification>)
    requires Step(id, event, false, rc, recipients, before, mid, posted, notes, marks)
    requires Step(id, event, false, rc', recipients, mid, after, posted', notes', marks')
    ensures posted' == [] && notes' == marks'
  {
    RedeliveryChangesNothing(before, event.AllSubjects(), event.sender, rc);
    QuietStepPostsNothing(id, event, false, rc', recipients, mid, after, posted', notes', marks');
  }

  /** Without recomputation (the parent side, and every remove) no DIRTY or CLEANED note is produced. */
  lemma SkipMarksNothing(id: VertexId, event: Event, delete: bool, recipients: set<VertexId>,
                         before: EntryMap, after: EntryMap, posted: seq<Post>, notes: seq<Notification>, marks: seq<Notification>)
    requires Step(id, event, delete, Skip, recipients, before, after, posted, notes, marks)
    ensures marks == []
  {
    if !delete {
      assert MarkedAs(before, event.AllSubjects(), event.sender, Skip, Dirty) == {};
      assert MarkedAs(before, event.AllSubjects(), event.sender, Skip, Cleaned) == {};
    }
  }

  /**
   * One processing step at `id`, from the map `before` to `after`, posting `posted` and
   * notifying `notes`: the map is updated by the add or remove path, and only if the
   * propagate flag was raised is the event forwarded, with the new key set, to every one of
   * `recipients`, preceded by a fork notification when there is any.
   */
  ghost predicate Step(id: VertexId, event: Event, delete: bool, rc: Recomputation, recipients: set<VertexId>,
                       before: EntryMap, after: EntryMap, posted: seq<Post>, notes: seq<Notification>, marks: seq<Notification>)
  {
    var targets := if Changes(before, event, delete) then recipients else {};
    && after == Updated(before, event, delete, rc)
    && FansOut(posted, targets, Forwarded(event, id, after.Keys))
    && notes == marks + ForkNotes(id, event, targets)
    && RecalculationNotes(marks, id, event, before, delete, rc)
  }

  /** The notification a recalculation result produces: DIRTY and CLEANED each have their own. */
  function NoteFor(result: RecalculationResult, id: VertexId, event: Event): (notes: seq<Notification>)
    ensures notes == [] <==> result == Unchanged
    ensures |notes| <= 1
    ensures forall n | n in notes :: n.vertex == id && n.event == event
    ensures result == Dirty ==> notes == [MarkedDirty(id, event)]
    ensures result == Cleaned ==> notes == [MarkedClean(id, event)]
  {
    match result
    case Dirty => [MarkedDirty(id, event)]
    case Cleaned => [MarkedClean(id, event)]
    case Unchanged => []
  }

  class EventProcessor {
    /** The local partition, as handed out by GraphLoader.getGraph(). */
    const graph: Graph
    /** EffectiveVertex.recalculatePermissions, whose rule is not part of this model. */
    const recalculate: Recalculator
    /** Every Inbox.post so far, in order. */
    var outbox: seq<Post>
    /** Every Instrumentation.notify so far, in order. */
    var notifications: seq<Notification>

    constructor (graph: Graph, recalculate: Recalculator)
      ensures this.graph == graph && this.recalculate == recalculate
      ensures outbox == [] && notifications == []
    {
      this.graph := graph;
      this.recalculate := recalculate;
      outbox, notifications := [], [];
    }

    /** The index object that processing an event at `id` may change. */
    function IndexAt(id: VertexId): set<VertexIndex>
      reads graph
    {
      if id in graph.vertices then {graph.vertices[id].index} else {}
    }

    /**
     * The fan-out targets: parent events go to the source of every edge entering `id`, child
     * events to the destination of every edge leaving it, each vertex once.
     */
    function Recipients(side: Side, id: VertexId): (recipients: set<VertexId>)
      reads graph
      requires graph.Valid()
      ensures forall u :: u in recipients <==> graph.HasEdge(if side == Parents then EdgeId(u, id) else EdgeId(id, u))
    {
      if side == Parents then set e | e in graph.GetEdgesByDestination(id) :: e.src
      else set e | e in graph.GetEdgesBySource(id) :: e.dst
    }

    /** Permissions are recomputed on the child side only, over the edges entering `id`. */
    function RecomputationFor(side: Side, id: VertexId): (rc: Recomputation)
      reads graph
      requires graph.Valid()
    {
      if side == Children then Over(recalculate, graph.GetEdgesByDestination(id)) else Skip
    }

    /**
     * process: a start notification, the path the event type selects, then an end
     * notification on success or a fail notification when the vertex is not stored here;
     * the failure is returned to the caller. `posted` and `notes` are what the selected path
     * appended to the outbox and to the notifications.
     */
    method Process(id: VertexId, event: Event)
      returns (outcome: Outcome<GraphError>, ghost posted: seq<Post>, ghost notes: seq<Notification>, ghost marks: seq<Notification>)
      requires graph.Valid()
      modifies this, IndexAt(id)
      ensures outcome.Fail? <==> id !in old(graph.vertices)
      ensures outbox == old(outbox) + posted
      ensures notifications == old(notifications) + [StartProcessing(id, event)] + notes
                               + [if outcome.Pass? then EndProcessing(id, event) else FailProcessing(id, event)]
      ensures outcome.Fail? ==> outcome.error == VertexNotFound(id) && posted == [] && notes == []
      ensures outcome.Pass? && old(graph.vertices[id].index.Valid()) ==> old(graph.vertices[id].index).Valid()
      ensures outcome.Pass? ==>
        var side := SideOf(event.eventType);
        var ix := old(graph.vertices[id].index);
        && ix.Effective(side.Other()) == old(ix.Effective(side.Other()))
        && Step(id, event, IsRemoval(event.eventType), old(RecomputationFor(side, id)), old(Recipients(side, id)),
                old(ix.Effective(side)), ix.Effective(side), posted, notes, marks)
    {
      notifications := notifications + [StartProcessing(id, event)];
      match event.eventType {
        case ChildChange =>
          outcome, posted, notes, marks := ProcessChild(id, event, false);
        case ParentChange =>
          outcome, posted, notes, marks := ProcessParent(id, event, false);
        case ChildRemove =>
          outcome, posted, notes, marks := ProcessChild(id, event, true);
        case ParentRemove =>
          outcome, posted, notes, marks := ProcessParent(id, event, true);
      }
      if outcome.Pass? {
        notifications := notifications + [EndProcessing(id, event)];
      } else {
        notifications := notifications + [FailProcessing(id, event)];
      }
    }

    /** processParent: the effective-parent map; forwarded to the sources of the edges entering `id`. */
    method ProcessParent(id: VertexId, event: Event, delete: bool)
      returns (outcome: Outcome<GraphError>, ghost posted: seq<Post>, ghost notes: seq<Notification>, ghost marks: seq<Notification>)
      requires graph.Valid()
      modifies this, IndexAt(id)
      ensures outcome.Fail? <==> id !in old(graph.vertices)
      ensures outbox == old(outbox) + posted
      ensures notifications == old(notifications) + notes
      ensures outcome.Fail? ==> outcome.error == VertexNotFound(id) && posted == [] && notes == []
      ensures outcome.Pass? && old(graph.vertices[id].index.Valid()) ==> old(graph.vertices[id].index).Valid()
      ensures outcome.Pass? ==>
        var ix := old(graph.vertices[id].index);
        && ix.Effective(Children) == old(ix.Effective(Children))
        && Step(id, event, delete, Skip, old(Recipients(Parents, id)), old(ix.Effective(Parents)), ix.Effective(Parents),
                posted, notes, marks)
    {
      posted, notes, marks := [], [], [];
      var found := graph.GetVertex(id);
      if found.Failure? {
        return Fail(found.error), posted, notes, marks;
      }
      var ix := found.value.index;
      var recipients := Recipients(Parents, id);
      var propagate;
      if delete {
        propagate := RemoveSenderAt(ix, Parents, event);
      } else {
        propagate, marks := AddSubjectsAt(ix, Parents, id, event, Skip);
      }
      if old(ix.Valid()) {
        UpdatedKeepsEntriesNonEmpty(old(ix.effectiveParents), event, delete, Skip);
      }
      notes := marks;
      if propagate {
        posted := PropagateEvent(id, recipients, event, ix.effectiveParents.Keys);
        Regroup(old(notifications), marks, ForkNotes(id, event, recipients));
        notes := marks + ForkNotes(id, event, recipients);
      }
      outcome := Pass;
    }

    /**
     * processChild: the effective-child map, recomputing permissions over the edges entering
     * `id`; forwarded to the destinations of the edges leaving `id`.
     */
    method ProcessChild(id: VertexId, event: Event, delete: bool)
      returns (outcome: Outcome<GraphError>, ghost posted: seq<Post>, ghost notes: seq<Notification>, ghost marks: seq<Notification>)
      requires graph.Valid()
      modifies this, IndexAt(id)
      ensures outcome.Fail? <==> id !in old(graph.vertices)
      ensures outbox == old(outbox) + posted
      ensures notifications == old(notifications) + notes
      ensures outcome.Fail? ==> outcome.error == VertexNotFound(id) && posted == [] && notes == []
      ensures outcome.Pass? && old(graph.vertices[id].index.Valid()) ==> old(graph.vertices[id].index).Valid()
      ensures outcome.Pass? ==>
        var ix := old(graph.vertices[id].index);
        && ix.Effective(Parents) == old(ix.Effective(Parents))
        && Step(id, event, delete, old(RecomputationFor(Children, id)), old(Recipients(Children, id)),
                old(ix.Effective(Children)), ix.Effective(Children), posted, notes, marks)
    {
      posted, notes, marks := [], [], [];
      var found := graph.GetVertex(id);
      if found.Failure? {
        return Fail(found.error), posted, notes, marks;
      }
      var ix := found.value.index;
      var edgesToCalculate := graph.GetEdgesByDestination(id);
      var recipients := Recipients(Children, id);
      var propagate;
      if delete {
        propagate := RemoveSenderAt(ix, Children, event);
      } else {
        propagate, marks := AddSubjectsAt(ix, Children, id, event, Over(recalculate, edgesToCalculate));
      }
      if old(ix.Valid()) {
        UpdatedKeepsEntriesNonEmpty(old(ix.effectiveChildren), event, delete, Over(recalculate, edgesToCalculate));
      }
      notes := marks;
      if propagate {
        posted := PropagateEvent(id, recipients, event, ix.effectiveChildren.Keys);
        Regroup(old(notifications), marks, ForkNotes(id, event, recipients));
        notes := marks + ForkNotes(id, event, recipients);
      }
      outcome := Pass;
    }

    /**
     * The remove path: the entry keyed by the original sender, if any, loses the sender and
     * is deleted once its mediating set is empty.
     */
    method RemoveSenderAt(ix: VertexIndex, side: Side, event: Event) returns (propagate: bool)
      modifies ix
      ensures ix.Effective(side) == RemoveSender(old(ix.Effective(side)), event.originalSender, event.sender)
      ensures ix.Effective(side.Other()) == old(ix.Effective(side.Other()))
      ensures propagate == RemoveChanges(old(ix.Effective(side)), event.originalSender, event.sender)
    {
      var toRemove := event.originalSender;
      propagate := false;
      var found := ix.GetEffective(side, toRemove);
      if found.Some? {
        var removed := found.value.RemoveIntermediateVertex(event.sender);
        ix.SetEffective(side, toRemove, removed.0);
        propagate := removed.1;
        if removed.0.intermediateVertices == {} {
          ix.RemoveEffective(side, toRemove);
          assert ix.Effective(side) == old(ix.Effective(side)) - {toRemove};
        }
      }
    }

    /**
     * Two steps the solver is handed explicitly inside the processing loops, where the
     * surrounding heap facts would otherwise make it search for them at length: regrouping
     * appended notifications, and moving one subject from `remaining` to `done`.
     */
    static lemma Regroup(a: seq<Notification>, b: seq<Notification>, c: seq<Notification>)
      ensures a + b + c == a + (b + c)
    {
    }

    static lemma MoveOne(all: set<VertexId>, done: set<VertexId>, remaining: set<VertexId>, s: VertexId)
      requires remaining <= all && done == all - remaining && s in remaining
      ensures done + {s} == all - (remaining - {s})
    {
    }

    /**
     * The add path: each subject's entry is fetched or created and gains the sender; on the
     * child side its permissions are recomputed and DIRTY or CLEANED is notified.
     */
    method AddSubjectsAt(ix: VertexIndex, side: Side, id: VertexId, event: Event, rc: Recomputation)
      returns (propagate: bool, ghost marks: seq<Notification>)
      modifies this, ix
      ensures ix.Effective(side) == AddSubjects(old(ix.Effective(side)), event.AllSubjects(), event.sender, rc)
      ensures ix.Effective(side.Other()) == old(ix.Effective(side.Other()))
      ensures propagate == AddChanges(old(ix.Effective(side)), event.AllSubjects(), event.sender)
      ensures outbox == old(outbox)
      ensures notifications == old(notifications) + marks
      ensures RecalculationNotes(marks, id, event, old(ix.Effective(side)), false, rc)
    {
      ghost var before := ix.Effective(side);
      var subjects := event.AllSubjects();
      var remaining := subjects;
      ghost var done: set<VertexId> := {};
      propagate := false;
      marks := [];
      while remaining != {}
        invariant remaining <= subjects && done == subjects - remaining
        invariant ix.Effective(side) == AddSubjects(before, done, event.sender, rc)
        invariant ix.Effective(side.Other()) == old(ix.Effective(side.Other()))
        invariant propagate == AddChanges(before, done, event.sender)
        invariant outbox == old(outbox)
        invariant notifications == old(notifications) + marks
        invariant MarksCount(marks, id, event, before, done, rc)
        decreases remaining
      {
        var s :| s in remaining;
        AddSubjectsStep(before, done, s, event.sender, rc);
        MarksCountStep(marks, id, event, before, done, s, rc);
        ghost var expected := NoteFor(Settle(before, s, event.sender, rc).1, id, event);
        var changed, note := AddSubjectAt(ix, side, id, event, s, rc);
        assert note == expected;
        Regroup(old(notifications), marks, note);
        MoveOne(subjects, done, remaining, s);
        propagate := propagate || changed;
        marks := marks + note;
        done := done + {s};
        remaining := remaining - {s};
      }
      assert subjects - remaining == subjects;
    }

    /**
     * One iteration of the add path: getOrAdd the subject's entry, add the sender to it, and
     * on the child side recompute its permissions and notify the classification.
     */
    method AddSubjectAt(ix: VertexIndex, side: Side, id: VertexId, event: Event, subject: VertexId, rc: Recomputation)
      returns (changed: bool, note: seq<Notification>)
      modifies this, ix
      ensures ix.Effective(side) == old(ix.Effective(side))[subject := Settle(old(ix.Effective(side)), subject, event.sender, rc).0]
      ensures ix.Effective(side.Other()) == old(ix.Effective(side.Other()))
      ensures changed <==> subject !in old(ix.Effective(side)) || event.sender !in old(ix.Effective(side))[subject].intermediateVertices
      ensures note == NoteFor(Settle(old(ix.Effective(side)), subject, event.sender, rc).1, id, event)
      ensures outbox == old(outbox)
      ensures notifications == old(notifications) + note
    {
      var entry, created := ix.GetOrAddEffective(side, subject);
      var added := entry.AddIntermediateVertex(event.sender);
      var settled, result := added.0, Unchanged;
      if rc.Over? {
        var recalculated := settled.RecalculatePermissions(rc.recalculate, rc.edges);
        settled, result := recalculated.0, recalculated.1;
      }
      ix.SetEffective(side, subject, settled);
      changed := created || added.1;
      note := NoteFor(result, id, event);
      notifications := notifications + note;
    }

    /**
     * propagateEvent: a fork notification when there is any recipient, then one forwarded
     * event, built from the incoming one, posted to each recipient.
     */
    method PropagateEvent(sender: VertexId, recipients: set<VertexId>, event: Event, effectiveVertices: set<VertexId>)
      returns (ghost sent: seq<Post>)
      modifies this
      ensures notifications == old(notifications) + ForkNotes(sender, event, recipients)
      ensures outbox == old(outbox) + sent
      ensures FansOut(sent, recipients, Forwarded(event, sender, effectiveVertices))
    {
      var size := |recipients|;
      if size > 0 {
        notifications := notifications + [ForkEvent(sender, event, size)];
      }
      var remaining := recipients;
      sent := [];
      while remaining != {}
        invariant remaining <= recipients
        invariant outbox == old(outbox) + sent
        invariant FansOut(sent, recipients - remaining, Forwarded(event, sender, effectiveVertices))
        invariant notifications == old(notifications) + ForkNotes(sender, event, recipients)
        decreases remaining
      {
        var r :| r in remaining;
        var newEvent := Forwarded(event, sender, effectiveVertices);
        FansOutExtend(sent, recipients - remaining, r, newEvent);
        assert (recipients - remaining) + {r} == recipients - (remaining - {r});
        outbox := outbox + [Post(r, newEvent)];
        sent := sent + [Post(r, newEvent)];
        remaining := remaining - {r};
      }
      assert recipients - remaining == recipients;
    }
  }
}

=== FILE: events.dfy ===
/**
 * Change events in flight (index/events/Event), the outbox they are posted to (Inbox.post)
 * and the instrumentation notifications (instrumentation/Notification).
 */
module Events {
  import opened Identifiers

  datatype EventType = ChildChange | ParentChange | ChildRemove | ParentRemove

  /**
   * A change notification: `originalSender` is the subject whose relation is added or
   * removed, `sender` the immediate upstream hop, `trace` the identifier of the whole cascade.
   */
  datatype Event = Event(
    eventType: EventType,
    trace: string,
    sender: VertexId,
    originalSender: VertexId,
    subjects: set<VertexId>,
    effectiveVertices: set<VertexId>)
  {
    /** getAllSubjects: the event's subjects together with the effective set it carries. */
    function AllSubjects(): (all: set<VertexId>)
      ensures subjects <= all && effectiveVertices <= all
      ensures forall v | v in all :: v in subjects || v in effectiveVertices
    {
      subjects + effectiveVertices
    }
  }

  /** One call of Inbox.post: the recipient vertex and the event delivered to it. */
  datatype Post = Post(recipient: VertexId, event: Event)

  datatype Notification =
    | StartProcessing(vertex: VertexId, event: Event)
    | EndProcessing(vertex: VertexId, event: Event)
    | FailProcessing(vertex: VertexId, event: Event)
    | ForkEvent(vertex: VertexId, event: Event, size: nat)
    | MarkedDirty(vertex: VertexId, event: Event)
    | MarkedClean(vertex: VertexId, event: Event)

  /**
   * The event re-emitted by `sender`: the incoming trace, type and original sender, the
   * sender replaced by the forwarding vertex, and the full current effective key set.
   */
  function Forwarded(event: Event, sender: VertexId, effectiveVertices: set<VertexId>): (e: Event)
    ensures e.trace == event.trace && e.eventType == event.eventType
    ensures e.originalSender == event.originalSender
    ensures e.sender == sender && e.effectiveVertices == effectiveVertices && e.subjects == {}
  {
    Event(event.eventType, event.trace, sender, event.originalSender, {}, effectiveVertices)
  }

  /** The fork notification: present exactly when there is somebody to post to. */
  function ForkNotes(sender: VertexId, event: Event, recipients: set<VertexId>): (notes: seq<Notification>)
    ensures notes == [] <==> recipients == {}
    ensures notes != [] ==> notes == [ForkEvent(sender, event, |recipients|)]
  {
    if |recipients| > 0 then [ForkEvent(sender, event, |recipients|)] else []
  }

  /** `posts` carries `event` to every vertex of `recipients`, to each exactly once, to nobody else. */
  ghost predicate FansOut(posts: seq<Post>, recipients: set<VertexId>, event: Event) {
    && (forall i | 0 <= i < |posts| :: posts[i].event == event && posts[i].recipient in recipients)
    && (forall r | r in recipients :: exists i :: 0 <= i < |posts| && posts[i].recipient == r)
    && (forall i, j | 0 <= i < j < |posts| :: posts[i].recipient != posts[j].recipient)
  }

  /** Posting to one more, new recipient extends a fan-out. */
  lemma FansOutExtend(posts: seq<Post>, recipients: set<VertexId>, r: VertexId, event: Event)
    requires FansOut(posts, recipients, event) && r !in recipients
    ensures FansOut(posts + [Post(r, event)], recipients + {r}, event)
  {
    var longer := posts + [Post(r, event)];
    forall q | q in recipients + {r}
      ensures exists i :: 0 <= i < |longer| && longer[i].recipient == q
    {
      if q == r {
        assert longer[|posts|].recipient == q;
      } else {
        var i :| 0 <= i < |posts| && posts[i].recipient == q;
        assert longer[i].recipient == q;
      }
    }
  }

  /**
   * Fan-out batching: a fan-out posts exactly one event per distinct recipient, however many
   * subjects changed before it.
   */
  lemma {:induction false} FanOutSize(posts: seq<Post>, recipients: set<VertexId>, event: Event)
    requires FansOut(posts, recipients, event)
    ensures |posts| == |recipients|
  {
    if posts == [] {
      assert forall r | r in recipients :: false;
      assert recipients == {};
    } else {
      var n := |posts| - 1;
      var last := posts[n].recipient;
      var rest := recipients - {last};
      forall r | r in rest
        ensures exists i :: 0 <= i < |posts[..n]| && posts[..n][i].recipient == r
      {
        var i :| 0 <= i < |posts| && posts[i].recipient == r;
        assert i < n && posts[..n][i] == posts[i];
      }
      assert FansOut(posts[..n], rest, event);
      FanOutSize(posts[..n], rest, event);
    }
  }
}

=== FILE: graph.dfy ===
/**
 * One zone's partition store (graph/model/Graph): the local vertices, the edges touching
 * them, and the adjacency indexes by source and by destination.
 */
module Graphs {
  import opened Wrappers
  import opened Identifiers
  import opened Edges
  import opened Index

  datatype GraphError =
    | WrongVertexZone(vertex: VertexId)
    | DanglingEdge(edge: Edge)
    | VertexNotFound(vertex: VertexId)
    | EdgeNotFound(edgeId: EdgeId)

  /** A vertex owned by this zone together with its reachability index. */
  class Vertex {
    const id: VertexId
    const index: VertexIndex

    constructor (id: VertexId)
      ensures this.id == id && fresh(index)
      ensures index.Valid() && index.effectiveParents == map[] && index.effectiveChildren == map[]
    {
      this.id := id;
      index := new VertexIndex();
    }
  }

  /** The edge map holds exactly `e` under its id. */
  ghost predicate Stored(edges: map<EdgeId, Edge>, e: Edge) {
    e.Id() in edges && edges[e.Id()] == e
  }

  /** An adjacency index's set for `v`, empty when `v` has none (getOrDefault). */
  function Adjacent(index: map<VertexId, set<Edge>>, v: VertexId): (out: set<Edge>)
    ensures v !in index ==> out == {}
  {
    if v in index then index[v] else {}
  }

  /**
   * The edge half of the store's invariant: edges are keyed by their id and touch a local
   * vertex, and the two adjacency indexes hold exactly the stored edges, each under its own
   * source and destination.
   */
  ghost predicate EdgesIndexed(local: set<VertexId>, edges: map<EdgeId, Edge>,
                               bySrc: map<VertexId, set<Edge>>, byDst: map<VertexId, set<Edge>>)
  {
    && (forall id | id in edges :: edges[id].Id() == id)
    && (forall id | id in edges :: edges[id].src in local || edges[id].dst in local)
    && (forall v, e | v in bySrc && e in bySrc[v] :: e.src == v && Stored(edges, e))
    && (forall v, e | v in byDst && e in byDst[v] :: e.dst == v && Stored(edges, e))
    && (forall id | id in edges :: edges[id].src in bySrc && edges[id] in bySrc[edges[id].src])
    && (forall id | id in edges :: edges[id].dst in byDst && edges[id] in byDst[edges[id].dst])
  }

  /** Storing a new edge with a local endpoint and adding it to both of its adjacency sets keeps the indexes exact. */
  lemma InsertKeepsIndexed(local: set<VertexId>, edges: map<EdgeId, Edge>,
                           bySrc: map<VertexId, set<Edge>>, byDst: map<VertexId, set<Edge>>, e: Edge)
    requires EdgesIndexed(local, edges, bySrc, byDst)
    requires e.Id() !in edges && (e.src in local || e.dst in local)
    ensures EdgesIndexed(local, edges[e.Id() := e], bySrc[e.src := Adjacent(bySrc, e.src) + {e}],
                         byDst[e.dst := Adjacent(byDst, e.dst) + {e}])
  {
    var edges', bySrc', byDst' := edges[e.Id() := e], bySrc[e.src := Adjacent(bySrc, e.src) + {e}],
                                  byDst[e.dst := Adjacent(byDst, e.dst) + {e}];
    forall v: VertexId, f: Edge | v in bySrc' && f in bySrc'[v]
      ensures f.src == v && Stored(edges', f)
    {
      if f != e {
        assert v in bySrc && f in bySrc[v];
      }
    }
    forall v: VertexId, f: Edge | v in byDst' && f in byDst'[v]
      ensures f.dst == v && Stored(edges', f)
    {
      if f != e {
        assert v in byDst && f in byDst[v];
      }
    }
  }

  /** Deleting a stored edge from the edge map and from both of its adjacency sets keeps the indexes exact. */
  lemma DeleteKeepsIndexed(local: set<VertexId>, edges: map<EdgeId, Edge>,
                           bySrc: map<VertexId, set<Edge>>, byDst: map<VertexId, set<Edge>>, e: Edge)
    requires EdgesIndexed(local, edges, bySrc, byDst)
    requires Stored(edges, e)
    ensures e.src in bySrc && e.dst in byDst
    ensures EdgesIndexed(local, edges - {e.Id()}, bySrc[e.src := bySrc[e.src] - {e}], byDst[e.dst := byDst[e.dst] - {e}])
  {
    assert edges[e.Id()] == e;
    var edges', bySrc', byDst' := edges - {e.Id()}, bySrc[e.src := bySrc[e.src] - {e}], byDst[e.dst := byDst[e.dst] - {e}];
    forall v: VertexId, f: Edge | v in bySrc' && f in bySrc'[v]
      ensures f.src == v && Stored(edges', f)
    {
      assert f in bySrc[v] && f.Id() != e.Id();
    }
    forall v: VertexId, f: Edge | v in byDst' && f in byDst'[v]
      ensures f.dst == v && Stored(edges', f)
    {
      assert f in byDst[v] && f.Id() != e.Id();
    }
  }

  class Graph {
    /** The local zone (the global ZONE_ID); None when zone affinity is not enforced. */
    const zone: Option<ZoneId>
    var vertices: map<VertexId, Vertex>
    var edges: map<EdgeId, Edge>
    var edgesBySrc: map<VertexId, set<Edge>>
    var edgesByDst: map<VertexId, set<Edge>>

    /**
     * The store's invariant: vertices are keyed by their id and owned by the local zone;
     * edges are keyed by their id and touch a local vertex; and the two adjacency indexes
     * hold exactly the stored edges, each under its own source and destination.
     */
    ghost predicate Valid()
      reads this
    {
      && (forall id | id in vertices :: vertices[id].id == id)
      && (forall id | id in vertices :: zone.Some? ==> id.owner == zone.value)
      && EdgesIndexed(vertices.Keys, edges, edgesBySrc, edgesByDst)
    }

    /** The edge map holds exactly this edge under its id. */
    ghost predicate Stores(e: Edge)
      reads this
    {
      Stored(edges, e)
    }

    constructor (zone: Option<ZoneId>)
      ensures Valid() && this.zone == zone
      ensures vertices == map[] && edges == map[] && edgesBySrc == map[] && edgesByDst == map[]
    {
      this.zone := zone;
      vertices, edges, edgesBySrc, edgesByDst := map[], map[], map[], map[];
    }

    /**
     * addVertex: refused for a vertex of another zone when a zone is configured; otherwise
     * inserted unless its id is already present, in which case the stored vertex is kept.
     */
    method AddVertex(v: Vertex) returns (outcome: Outcome<GraphError>)
      requires Valid()
      modifies this
      ensures Valid()
      ensures outcome.Pass? <==> zone.None? || v.id.owner == zone.value
      ensures outcome.Fail? ==> outcome.error == WrongVertexZone(v.id)
      ensures vertices == if outcome.Pass? && v.id !in old(vertices) then old(vertices)[v.id := v] else old(vertices)
      ensures edges == old(edges) && edgesBySrc == old(edgesBySrc) && edgesByDst == old(edgesByDst)
    {
      if zone.None? || v.id.owner == zone.value {
        if v.id !in vertices {
          vertices := vertices[v.id := v];
        }
        outcome := Pass;
      } else {
        outcome := Fail(WrongVertexZone(v.id));
      }
    }

    /** hasVertex: agrees with whether getVertex succeeds. */
    predicate HasVertex(id: VertexId)
      reads this
      requires Valid()
      ensures HasVertex(id) <==> GetVertex(id).Success?
    {
      id in vertices
    }

    /** getVertex: fails exactly for an absent id; otherwise returns the vertex with that id. */
    function GetVertex(id: VertexId): (r: Result<Vertex, GraphError>)
      reads this
      requires Valid()
      ensures r.Failure? <==> id !in vertices
      ensures r.Failure? ==> r.error == VertexNotFound(id)
      ensures r.Success? ==> r.value == vertices[id] && r.value.id == id
    {
      if id in vertices then Success(vertices[id]) else Failure(VertexNotFound(id))
    }

    /** hasEdge: an id is stored exactly when its source's adjacency set holds an edge with that id. */
    predicate HasEdge(id: EdgeId)
      reads this
      requires Valid()
      ensures HasEdge(id) <==> exists e :: e in GetEdgesBySource(id.from) && e.Id() == id
    {
      assert id in edges ==> edges[id] in GetEdgesBySource(id.from);
      id in edges
    }

    /** getEdge: the stored edge with that id, whose endpoints are the id's, or nothing. */
    function GetEdge(id: EdgeId): (r: Option<Edge>)
      reads this
      requires Valid()
      ensures r.Some? <==> HasEdge(id)
      ensures r.Some? ==> r.value.src == id.from && r.value.dst == id.to && Stores(r.value)
    {
      if id in edges then Some(edges[id]) else None
    }

    /** getEdgesBySource: exactly the stored edges leaving `source` (empty if none were recorded). */
    function GetEdgesBySource(source: VertexId): (out: set<Edge>)
      reads this
      requires Valid()
      ensures forall e :: e in out <==> e.src == source && Stores(e)
    {
      Adjacent(edgesBySrc, source)
    }

    /** getEdgesByDestination: exactly the stored edges entering `destination`. */
    function GetEdgesByDestination(destination: VertexId): (out: set<Edge>)
      reads this
      requires Valid()
      ensures forall e :: e in out <==> e.dst == destination && Stores(e)
    {
      Adjacent(edgesByDst, destination)
    }

    /**
     * addEdge: refused, with nothing changed, when neither endpoint is a local vertex;
     * otherwise the edge is stored under its id and indexed under its source and destination.
     */
    method AddEdge(e: Edge) returns (outcome: Outcome<GraphError>)
      requires Valid()
      requires e.Id() !in edges
      modifies this
      ensures Valid()
      ensures outcome.Fail? <==> e.src !in vertices && e.dst !in vertices
      ensures outcome.Fail? ==> outcome.error == DanglingEdge(e)
      ensures vertices == old(vertices)
      ensures edges == if outcome.Pass? then old(edges)[e.Id() := e] else old(edges)
      ensures edgesBySrc == if outcome.Pass? then old(edgesBySrc)[e.src := old(GetEdgesBySource(e.src)) + {e}] else old(edgesBySrc)
      ensures edgesByDst == if outcome.Pass? then old(edgesByDst)[e.dst := old(GetEdgesByDestination(e.dst)) + {e}] else old(edgesByDst)
    {
      if e.src !in vertices && e.dst !in vertices {
        return Fail(DanglingEdge(e));
      }
      InsertKeepsIndexed(vertices.Keys, edges, edgesBySrc, edgesByDst, e);
      edges := edges[e.Id() := e];
      edgesBySrc := edgesBySrc[e.src := Adjacent(edgesBySrc, e.src) + {e}];
      edgesByDst := edgesByDst[e.dst := Adjacent(edgesByDst, e.dst) + {e}];
      outcome := Pass;
    }

    /**
     * removeEdge: no-op for no edge; for a stored edge, removes it from the edge map and from
     * both adjacency sets and leaves every other edge where it was. An edge whose id is not
     * stored but whose endpoints both have adjacency sets (a second removal, say) is a no-op.
     */
    method RemoveEdge(e: Option<Edge>)
      requires Valid()
      requires e.Some? ==>
        Stores(e.value) || (e.value.Id() !in edges && e.value.src in edgesBySrc && e.value.dst in edgesByDst)
      modifies this
      ensures Valid()
      ensures vertices == old(vertices)
      ensures e.None? ==> edges == old(edges) && edgesBySrc == old(edgesBySrc) && edgesByDst == old(edgesByDst)
      ensures e.Some? && !old(Stores(e.value)) ==>
        edges == old(edges) && edgesBySrc == old(edgesBySrc) && edgesByDst == old(edgesByDst)
      ensures e.Some? && old(Stores(e.value)) ==> edges == old(edges) - {e.value.Id()}
      ensures e.Some? && old(Stores(e.value)) ==>
        edgesBySrc == old(edgesBySrc)[e.value.src := old(edgesBySrc[e.value.src]) - {e.value}]
      ensures e.Some? && old(Stores(e.value)) ==>
        edgesByDst == old(edgesByDst)[e.value.dst := old(edgesByDst[e.value.dst]) - {e.value}]
    {
      if e.Some? {
        var edge := e.value;
        if Stores(edge) {
          DeleteKeepsIndexed(vertices.Keys, edges, edgesBySrc, edgesByDst, edge);
        } else {
          assert edgesBySrc[edge.src] - {edge} == edgesBySrc[edge.src];
          assert edgesByDst[edge.dst] - {edge} == edgesByDst[edge.dst];
          assert edgesBySrc[edge.src := edgesBySrc[edge.src]] == edgesBySrc;
          assert edgesByDst[edge.dst := edgesByDst[edge.dst]] == edgesByDst;
        }
        edges := edges - {edge.Id()};
        edgesBySrc := edgesBySrc[edge.src := edgesBySrc[edge.src] - {edge}];
        edgesByDst := edgesByDst[edge.dst := edgesByDst[edge.dst] - {edge}];
      }
    }

    /**
     * setPermissions: fails when the id is absent; otherwise the stored edge is replaced by
     * one with the same endpoints and the new permissions, and nothing else changes.
     */
    method SetPermissions(edgeId: EdgeId, permissions: Permissions) returns (outcome: Outcome<GraphError>)
      requires Valid()
      modifies this
      ensures Valid()
      ensures outcome.Fail? <==> edgeId !in old(edges)
      ensures outcome.Fail? ==> outcome.error == EdgeNotFound(edgeId)
      ensures vertices == old(vertices)
      ensures edges.Keys == old(edges.Keys)
      ensures outcome.Fail? ==> edges == old(edges) && edgesBySrc == old(edgesBySrc) && edgesByDst == old(edgesByDst)
      ensures outcome.Pass? ==>
        && edges == old(edges)[edgeId := Edge(edgeId.from, edgeId.to, permissions)]
        && edges[edgeId].src == old(edges[edgeId].src) && edges[edgeId].dst == old(edges[edgeId].dst)
      ensures outcome.Pass? ==>
        edgesBySrc == old(edgesBySrc)[edgeId.from := old(edgesBySrc[edgeId.from]) - {old(edges[edgeId])} + {edges[edgeId]}]
      ensures outcome.Pass? ==>
        edgesByDst == old(edgesByDst)[edgeId.to := old(edgesByDst[edgeId.to]) - {old(edges[edgeId])} + {edges[edgeId]}]
    {
      var edge := GetEdge(edgeId);
      if edge.None? {
        return Fail(EdgeNotFound(edgeId));
      }
      RemoveEdge(edge);
      outcome := AddEdge(Edge(edgeId.from, edgeId.to, permissions));
    }

    /**
     * allZones: every zone owning a local vertex or an endpoint of a stored edge, and nothing
     * else.
     */
    function AllZones(): (zones: set<ZoneId>)
      reads this
      requires Valid()
      ensures forall id | id in vertices :: id.owner in zones
      ensures forall id | id in edges :: id.from.owner in zones && id.to.owner in zones
      ensures forall z | z in zones ::
        (exists id :: id in vertices && id.owner == z) ||
        (exists id :: id in edges && (id.from.owner == z || id.to.owner == z))
    {
      (set v | v in vertices.Values :: v.id.owner)
      + (set e | e in edges.Values :: e.src.owner)
      + (set e | e in edges.Values :: e.dst.owner)
    }
  }

  /**
   * With a zone configured, the local zone is reported exactly when the partition holds a
   * vertex: every vertex is owned by that zone, and an edge can only be stored beside one.
   */
  lemma LocalZoneInAllZones(g: Graph)
    requires g.Valid() && g.zone.Some?
    ensures g.zone.value in g.AllZones() <==> g.vertices != map[]
  {
    if g.vertices != map[] {
      var id :| id in g.vertices;
      assert id.owner == g.zone.value;
    } else {
      assert forall id | id in g.edges :: false;
      assert g.edges == map[];
    }
  }
}

=== FILE: identifiers.dfy ===
/**
 * Zone-qualified vertex identity and ordered edge identity
 * (graph/model/VertexId and graph/model/EdgeId).
 */
module Identifiers {

  /** An administrative partition owning a disjoint set of vertices. */
  datatype ZoneId = ZoneId(id: string)

  /** A vertex identity: the zone that owns the vertex and a name local to it. */
  datatype VertexId = VertexId(owner: ZoneId, name: string)

  /** A three-way comparison in the style of Comparable.compareTo: negative, zero or positive. */
  type Comparator<!T> = (T, T) -> int

  function Sign(x: int): int {
    if x < 0 then -1 else if x > 0 then 1 else 0
  }

  /**
   * The laws Comparable asks of compareTo for a strict total order that agrees with equality.
   * VertexId.compareTo is not part of this model; every fact about the EdgeId order is proved
   * for an arbitrary vertex comparator that obeys these laws.
   */
  ghost predicate IsTotalComparator<T(!new)>(cmp: Comparator<T>) {
    && (forall a, b :: cmp(a, b) == 0 <==> a == b)
    && (forall a, b :: Sign(cmp(a, b)) == -Sign(cmp(b, a)))
    && (forall a, b, c :: cmp(a, b) < 0 && cmp(b, c) < 0 ==> cmp(a, c) < 0)
  }

  /** The identity of a directed edge; structural equality is the equality of both endpoints. */
  datatype EdgeId = EdgeId(from: VertexId, to: VertexId) {

    /** Lexicographic comparison: first by `from`, then by `to`; 0 only when both components compare equal. */
    function CompareTo(o: EdgeId, cmp: Comparator<VertexId>): (r: int)
      ensures r == 0 <==> cmp(from, o.from) == 0 && cmp(to, o.to) == 0
    {
      var c := cmp(from, o.from);
      if c != 0 then c else cmp(to, o.to)
    }
  }

  /** EdgeId.of */
  function Of(from: VertexId, to: VertexId): (id: EdgeId)
    ensures id.from == from && id.to == to
  {
    EdgeId(from, to)
  }

  /** The order of `from` decides whenever the sources differ; otherwise the order of `to` decides. */
  lemma CompareToIsLexicographic(a: EdgeId, b: EdgeId, cmp: Comparator<VertexId>)
    requires IsTotalComparator(cmp)
    ensures a.from != b.from ==> Sign(a.CompareTo(b, cmp)) == Sign(cmp(a.from, b.from))
    ensures a.from == b.from ==> Sign(a.CompareTo(b, cmp)) == Sign(cmp(a.to, b.to))
  {
  }

  /** compareTo answers 0 exactly for structurally equal identities. */
  lemma CompareToZeroIffEqual(a: EdgeId, b: EdgeId, cmp: Comparator<VertexId>)
    requires IsTotalComparator(cmp)
    ensures a.CompareTo(b, cmp) == 0 <==> a == b
  {
  }

  lemma CompareToAntisymmetric(a: EdgeId, b: EdgeId, cmp: Comparator<VertexId>)
    requires IsTotalComparator(cmp)
    ensures Sign(a.CompareTo(b, cmp)) == -Sign(b.CompareTo(a, cmp))
  {
  }

  lemma CompareToTransitive(a: EdgeId, b: EdgeId, c: EdgeId, cmp: Comparator<VertexId>)
    requires IsTotalComparator(cmp)
    requires a.CompareTo(b, cmp) < 0 && b.CompareTo(c, cmp) < 0
    ensures a.CompareTo(c, cmp) < 0
  {
  }

  /**
   * The EdgeId comparison obeys the same laws as the vertex comparison it is built from, so
   * it is fit to order the sorted adjacency sets: no two distinct identities compare equal.
   */
  lemma CompareToIsTotalComparator(cmp: Comparator<VertexId>)
    requires IsTotalComparator(cmp)
    ensures IsTotalComparator((a: EdgeId, b: EdgeId) => a.CompareTo(b, cmp))
  {
    var edgeCmp := (a: EdgeId, b: EdgeId) => a.CompareTo(b, cmp);
    forall a: EdgeId, b: EdgeId
      ensures edgeCmp(a, b) == 0 <==> a == b
      ensures Sign(edgeCmp(a, b)) == -Sign(edgeCmp(b, a))
    {
      CompareToZeroIffEqual(a, b, cmp);
      CompareToAntisymmetric(a, b, cmp);
    }
    forall a: EdgeId, b: EdgeId, c: EdgeId | edgeCmp(a, b) < 0 && edgeCmp(b, c) < 0
      ensures edgeCmp(a, c) < 0
    {
      CompareToTransitive(a, b, c, cmp);
    }
  }
}

=== FILE: index.dfy ===
/**
 * The per-vertex reachability index (index/EffectiveVertex and index/VertexIndex):
 * rows "subject S is effectively reachable through these direct neighbours".
 */
module Index {
  import opened Wrappers
  import opened Identifiers
  import opened Edges

  /** The classification returned by a permission recalculation. */
  datatype RecalculationResult = Dirty | Cleaned | Unchanged

  /** What a recalculation decides: the aggregated permissions, the dirty flag and the classification. */
  datatype Recalculation = Recalculation(permissions: Permissions, dirty: bool, result: RecalculationResult)

  /**
   * EffectiveVertex.recalculatePermissions as a pure function of the entry and the candidate
   * edges; its combination rule is not part of this model, so the processor is given one.
   */
  type Recalculator = (EffectiveVertex, set<Edge>) -> Recalculation

  /** One row of the index: the mediating neighbours, aggregated permissions and dirty flag. */
  datatype EffectiveVertex = EffectiveVertex(
    intermediateVertices: set<VertexId>,
    permissions: Permissions,
    dirty: bool)
  {
    /** addIntermediateVertex: the flag reports whether the mediating set actually grew. */
    function AddIntermediateVertex(v: VertexId): (r: (EffectiveVertex, bool))
      ensures r.0.intermediateVertices == intermediateVertices + {v}
      ensures r.0.permissions == permissions && r.0.dirty == dirty
      ensures r.1 <==> r.0.intermediateVertices != intermediateVertices
    {
      (this.(intermediateVertices := intermediateVertices + {v}), v !in intermediateVertices)
    }

    /** removeIntermediateVertex: the flag reports whether the mediating set actually shrank. */
    function RemoveIntermediateVertex(v: VertexId): (r: (EffectiveVertex, bool))
      ensures r.0.intermediateVertices == intermediateVertices - {v}
      ensures r.0.permissions == permissions && r.0.dirty == dirty
      ensures r.1 <==> r.0.intermediateVertices != intermediateVertices
    {
      (this.(intermediateVertices := intermediateVertices - {v}), v in intermediateVertices)
    }

    /** recalculatePermissions: replaces permissions and dirty flag, never the mediating set. */
    function RecalculatePermissions(recalculate: Recalculator, edges: set<Edge>): (r: (EffectiveVertex, RecalculationResult))
      ensures r.0.intermediateVertices == intermediateVertices
    {
      var c := recalculate(this, edges);
      (this.(permissions := c.permissions, dirty := c.dirty), c.result)
    }
  }

  /** A freshly created entry: no mediating neighbours yet. */
  const EmptyEntry: EffectiveVertex := EffectiveVertex({}, "", false)

  /** One of the two maps of a VertexIndex. */
  type EntryMap = map<VertexId, EffectiveVertex>

  datatype Side = Parents | Children {
    function Other(): (other: Side) {
      if this == Parents then Children else Parents
    }
  }

  /** The garbage-collection rule: an entry exists only while its mediating set is non-empty. */
  ghost predicate NonEmptyEntries(m: EntryMap) {
    forall s | s in m :: m[s].intermediateVertices != {}
  }

  /** VertexIndex: effective parents and effective children, each keyed by subject. */
  class VertexIndex {
    var effectiveParents: EntryMap
    var effectiveChildren: EntryMap

    ghost predicate Valid()
      reads this
    {
      NonEmptyEntries(effectiveParents) && NonEmptyEntries(effectiveChildren)
    }

    constructor ()
      ensures Valid()
      ensures effectiveParents == map[] && effectiveChildren == map[]
    {
      effectiveParents, effectiveChildren := map[], map[];
    }

    /** getEffectiveParents / getEffectiveChildren */
    function Effective(side: Side): (entries: EntryMap)
      reads this
    {
      if side == Parents then effectiveParents else effectiveChildren
    }

    /** getEffectiveParent / getEffectiveChild: the entry for a subject, if any. */
    function GetEffective(side: Side, subject: VertexId): (r: Option<EffectiveVertex>)
      reads this
      ensures r.Some? <==> subject in Effective(side)
      ensures r.Some? ==> r.value == Effective(side)[subject]
    {
      var m := Effective(side);
      if subject in m then Some(m[subject]) else None
    }

    /**
     * getOrAddEffectiveParent / getOrAddEffectiveChild: `created` reports whether an empty
     * entry had to be made, which the processor treats as a visible change.
     */
    method GetOrAddEffective(side: Side, subject: VertexId) returns (entry: EffectiveVertex, created: bool)
      modifies this
      ensures created <==> subject !in old(Effective(side))
      ensures Effective(side) == if created then old(Effective(side))[subject := EmptyEntry] else old(Effective(side))
      ensures entry == Effective(side)[subject]
      ensures Effective(side.Other()) == old(Effective(side.Other()))
    {
      var m := Effective(side);
      created := subject !in m;
      if created {
        m := m[subject := EmptyEntry];
        if side == Parents { effectiveParents := m; } else { effectiveChildren := m; }
      }
      entry := m[subject];
    }

    /**
     * Stores the new value of an entry. The source mutates the entry object it obtained from
     * the map; entries are values here, so the update is written back under its subject.
     */
    method SetEffective(side: Side, subject: VertexId, entry: EffectiveVertex)
      modifies this
      ensures Effective(side) == old(Effective(side))[subject := entry]
      ensures Effective(side.Other()) == old(Effective(side.Other()))
    {
      if side == Parents {
        effectiveParents := effectiveParents[subject := entry];
      } else {
        effectiveChildren := effectiveChildren[subject := entry];
      }
    }

    /** removeEffectiveParent / removeEffectiveChild: deletes the row entirely. */
    method RemoveEffective(side: Side, subject: VertexId)
      modifies this
      ensures Effective(side) == old(Effective(side)) - {subject}
      ensures Effective(side.Other()) == old(Effective(side.Other()))
    {
      if side == Parents {
        effectiveParents := effectiveParents - {subject};
      } else {
        effectiveChildren := effectiveChildren - {subject};
      }
    }
  }
}

=== FILE: index_updates.dfy ===
/**
 * What one processing step does to one map of a vertex index, as pure functions of the map
 * before the step, and the properties of the add and remove paths
 * (index/EventProcessor, processParent and processChild).
 */
module IndexUpdates {
  import opened Identifiers
  import opened Edges
  import opened Index
  import opened Events

  /**
   * Whether the add path recomputes permissions: the parent side never does; the child side
   * recomputes each touched entry over the edges entering the target vertex.
   */
  datatype Recomputation = Skip | Over(recalculate: Recalculator, edges: set<Edge>)

  /** The entry for a subject, or the fresh empty entry getOrAdd would create. */
  function Lookup(m: EntryMap, subject: VertexId): (entry: EffectiveVertex) {
    if subject in m then m[subject] else EmptyEntry
  }

  /** The mediating set recorded for a subject; empty when there is no entry. */
  function MediatorsOf(m: EntryMap, subject: VertexId): (mediators: set<VertexId>) {
    Lookup(m, subject).intermediateVertices
  }

  /** The externally visible part of a map: which subjects are reachable through which neighbours. */
  function Mediators(m: EntryMap): (visible: map<VertexId, set<VertexId>>) {
    map s | s in m :: m[s].intermediateVertices
  }

  /** The add path for one subject: the sender added to its entry, then the recomputation. */
  function Settle(m: EntryMap, subject: VertexId, sender: VertexId, rc: Recomputation): (settled: (EffectiveVertex, RecalculationResult)) {
    var added := Lookup(m, subject).AddIntermediateVertex(sender).0;
    match rc
    case Skip => (added, Unchanged)
    case Over(recalculate, edges) => added.RecalculatePermissions(recalculate, edges)
  }

  /** The add path: every subject's entry, created if absent, gains the sender. */
  function AddSubjects(m: EntryMap, subjects: set<VertexId>, sender: VertexId, rc: Recomputation): (r: EntryMap) {
    map s | s in m.Keys + subjects :: if s in subjects then Settle(m, s, sender, rc).0 else m[s]
  }

  /** The propagate flag of the add path: some entry was created or some mediating set grew. */
  predicate AddChanges(m: EntryMap, subjects: set<VertexId>, sender: VertexId) {
    exists s | s in subjects :: s !in m || sender !in m[s].intermediateVertices
  }

  /**
   * The remove path: only the entry keyed by `key` loses `sender`, and it is deleted when its
   * mediating set is left empty; without an entry the map is unchanged.
   */
  function RemoveSender(m: EntryMap, key: VertexId, sender: VertexId): (r: EntryMap) {
    if key !in m then m
    else
      var entry := m[key].RemoveIntermediateVertex(sender).0;
      if entry.intermediateVertices == {} then m - {key} else m[key := entry]
  }

  /** The propagate flag of the remove path: the sender was actually removed. */
  predicate RemoveChanges(m: EntryMap, key: VertexId, sender: VertexId) {
    key in m && sender in m[key].intermediateVertices
  }

  /** The map after processing `event` on the add path (delete false) or the remove path. */
  function Updated(m: EntryMap, event: Event, delete: bool, rc: Recomputation): (r: EntryMap) {
    if delete then RemoveSender(m, event.originalSender, event.sender)
    else AddSubjects(m, event.AllSubjects(), event.sender, rc)
  }

  /** Whether processing `event` sets the propagate flag. */
  predicate Changes(m: EntryMap, event: Event, delete: bool) {
    if delete then RemoveChanges(m, event.originalSender, event.sender)
    else AddChanges(m, event.AllSubjects(), event.sender)
  }

  /** The subjects whose recomputation on the add path is classified as `result`. */
  ghost function MarkedAs(m: EntryMap, subjects: set<VertexId>, sender: VertexId, rc: Recomputation, result: RecalculationResult): set<VertexId> {
    set s | s in subjects && Settle(m, s, sender, rc).1 == result
  }

  /** One more subject on the add path, as the processing loop takes them one at a time. */
  lemma AddSubjectsStep(m: EntryMap, done: set<VertexId>, s: VertexId, sender: VertexId, rc: Recomputation)
    requires s !in done
    ensures s in AddSubjects(m, done, sender, rc) <==> s in m
    ensures s in m ==> AddSubjects(m, done, sender, rc)[s] == m[s]
    ensures Settle(AddSubjects(m, done, sender, rc), s, sender, rc) == Settle(m, s, sender, rc)
    ensures AddSubjects(m, done + {s}, sender, rc) == AddSubjects(m, done, sender, rc)[s := Settle(m, s, sender, rc).0]
    ensures AddChanges(m, done + {s}, sender) <==> AddChanges(m, done, sender) || s !in m || sender !in m[s].intermediateVertices
  {
    var before := AddSubjects(m, done, sender, rc);
    var after := AddSubjects(m, done + {s}, sender, rc);
    assert after.Keys == before[s := Settle(m, s, sender, rc).0].Keys;
    if AddChanges(m, done + {s}, sender) && !(s !in m || sender !in m[s].intermediateVertices) {
      var t :| t in done + {s} && (t !in m || sender !in m[t].intermediateVertices);
      assert t in done;
    }
  }

  /** The number of subjects classified as `result` grows by one exactly for a matching new subject. */
  lemma MarkedAsStepSize(m: EntryMap, done: set<VertexId>, s: VertexId, sender: VertexId, rc: Recomputation, result: RecalculationResult)
    requires s !in done
    ensures |MarkedAs(m, done + {s}, sender, rc, result)|
      == |MarkedAs(m, done, sender, rc, result)| + (if Settle(m, s, sender, rc).1 == result then 1 else 0)
  {
    assert MarkedAs(m, done + {s}, sender, rc, result)
      == MarkedAs(m, done, sender, rc, result) + (if Settle(m, s, sender, rc).1 == result then {s} else {});
  }

  /**
   * After the add path every subject has an entry whose mediating set is the old one plus the
   * sender; entries of other subjects are untouched.
   */
  lemma AddSubjectsRecordsSender(m: EntryMap, subjects: set<VertexId>, sender: VertexId, rc: Recomputation)
    ensures var r := AddSubjects(m, subjects, sender, rc);
      && r.Keys == m.Keys + subjects
      && (forall s | s in subjects :: r[s].intermediateVertices == MediatorsOf(m, s) + {sender})
      && (forall s | s in m && s !in subjects :: r[s] == m[s])
  {
  }

  /**
   * The propagate flag of the add path is raised exactly when the visible state changes:
   * some subject gained an entry or a mediating neighbour.
   */
  lemma AddChangesIffMediatorsChange(m: EntryMap, subjects: set<VertexId>, sender: VertexId, rc: Recomputation)
    ensures AddChanges(m, subjects, sender) <==> Mediators(AddSubjects(m, subjects, sender, rc)) != Mediators(m)
  {
    var r := AddSubjects(m, subjects, sender, rc);
    if AddChanges(m, subjects, sender) {
      var s :| s in subjects && (s !in m || sender !in m[s].intermediateVertices);
      assert s in Mediators(r) && sender in Mediators(r)[s];
      assert s !in Mediators(m) || sender !in Mediators(m)[s];
    } else {
      assert r.Keys == m.Keys;
      forall s | s in m
        ensures Mediators(r)[s] == Mediators(m)[s]
      {
        if s in subjects {
          assert sender in m[s].intermediateVertices;
        }
      }
    }
  }

  /**
   * Re-delivering an identical add event raises no flag, so it posts nothing; on the parent
   * side, which does not recompute permissions, it leaves the map exactly as it was.
   */
  lemma RedeliveryChangesNothing(m: EntryMap, subjects: set<VertexId>, sender: VertexId, rc: Recomputation)
    ensures !AddChanges(AddSubjects(m, subjects, sender, rc), subjects, sender)
    ensures rc == Skip ==>
      AddSubjects(AddSubjects(m, subjects, sender, rc), subjects, sender, rc) == AddSubjects(m, subjects, sender, rc)
  {
    var once := AddSubjects(m, subjects, sender, rc);
    if rc == Skip {
      var twice := AddSubjects(once, subjects, sender, rc);
      assert twice.Keys == once.Keys;
      forall s | s in once
        ensures twice[s] == once[s]
      {
        if s in subjects {
          assert Lookup(once, s).intermediateVertices + {sender} == once[s].intermediateVertices;
        }
      }
    }
  }

  /**
   * The remove path touches only the entry keyed by `key`: every other entry is kept as it
   * was, and that entry survives exactly when a mediating neighbour other than `sender`
   * remains, with `sender` gone from its set.
   */
  lemma RemoveSenderTouchesOnlyKey(m: EntryMap, key: VertexId, sender: VertexId)
    ensures var r := RemoveSender(m, key, sender);
      && (forall k | k != key :: (k in r <==> k in m) && (k in m ==> r[k] == m[k]))
      && (key in r <==> key in m && m[key].intermediateVertices - {sender} != {})
      && (key in r ==> r[key].intermediateVertices == m[key].intermediateVertices - {sender})
      && (key !in m ==> r == m)
  {
  }

  /**
   * Under the garbage-collection rule, the propagate flag of the remove path is raised exactly
   * when the visible state changes.
   */
  lemma RemoveChangesIffMediatorsChange(m: EntryMap, key: VertexId, sender: VertexId)
    requires NonEmptyEntries(m)
    ensures RemoveChanges(m, key, sender) <==> Mediators(RemoveSender(m, key, sender)) != Mediators(m)
  {
    var r := RemoveSender(m, key, sender);
    if RemoveChanges(m, key, sender) {
      if key in r {
        assert sender !in Mediators(r)[key] && sender in Mediators(m)[key];
      } else {
        assert key in Mediators(m) && key !in Mediators(r);
      }
    } else if key in m {
      assert r == m[key := m[key]];
    }
  }

  /** Both paths keep the garbage-collection rule: no entry is left with an empty mediating set. */
  lemma UpdatedKeepsEntriesNonEmpty(m: EntryMap, event: Event, delete: bool, rc: Recomputation)
    requires NonEmptyEntries(m)
    ensures NonEmptyEntries(Updated(m, event, delete, rc))
  {
    if !delete {
      AddSubjectsRecordsSender(m, event.AllSubjects(), event.sender, rc);
    }
  }

  /** A change to one subject's mediating set, as delivered by an add or a remove event. */
  datatype MediatorChange = AddVia(neighbour: VertexId) | RemoveVia(neighbour: VertexId)

  /** The map after the add and remove events of `changes`, all about `subject`, in order. */
  function Replay(m: EntryMap, subject: VertexId, changes: seq<MediatorChange>, rc: Recomputation): (r: EntryMap)
    decreases |changes|
  {
    if changes == [] then m
    else
      var next := match changes[0]
        case AddVia(x) => AddSubjects(m, {subject}, x, rc)
        case RemoveVia(x) => RemoveSender(m, subject, x);
      Replay(next, subject, changes[1..], rc)
  }

  /** The mediating set those changes leave, starting from `start`, as plain set updates. */
  function MediatorsAfter(start: set<VertexId>, changes: seq<MediatorChange>): (mediators: set<VertexId>)
    decreases |changes|
  {
    if changes == [] then start
    else
      var next := match changes[0]
        case AddVia(x) => start + {x}
        case RemoveVia(x) => start - {x};
      MediatorsAfter(next, changes[1..])
  }

  /**
   * Index garbage collection: after any sequence of adds and removes for one subject, its
   * entry is present exactly when the resulting mediating set is non-empty, and then holds
   * exactly that set; entries of other subjects are untouched.
   */
  lemma {:induction false} ReplayTracksMediators(m: EntryMap, subject: VertexId, changes: seq<MediatorChange>, rc: Recomputation)
    requires NonEmptyEntries(m)
    ensures var r := Replay(m, subject, changes, rc);
      var want := MediatorsAfter(MediatorsOf(m, subject), changes);
      && (subject in r <==> want != {})
      && MediatorsOf(r, subject) == want
      && (forall k | k != subject :: (k in r <==> k in m) && (k in m ==> r[k] == m[k]))
    decreases |changes|
  {
    if changes != [] {
      var next := match changes[0]
        case AddVia(x) => AddSubjects(m, {subject}, x, rc)
        case RemoveVia(x) => RemoveSender(m, subject, x);
      var start := MediatorsOf(m, subject);
      match changes[0] {
        case AddVia(x) =>
          AddSubjectsRecordsSender(m, {subject}, x, rc);
          assert MediatorsOf(next, subject) == start + {x};
          assert NonEmptyEntries(next);
        case RemoveVia(x) =>
          RemoveSenderTouchesOnlyKey(m, subject, x);
          assert MediatorsOf(next, subject) == start - {x};
          assert NonEmptyEntries(next);
      }
      ReplayTracksMediators(next, subject, changes[1..], rc);
    }
  }
}

=== FILE: wrappers.dfy ===
/** Failure-compatible result types used for the error paths of the graph and the processor. */
module Wrappers {

  datatype Option<+T> = None | Some(value: T)

  datatype Result<+R, +E> = Success(value: R) | Failure(error: E)

  /** The outcome of an operation that returns nothing but may fail. */
  datatype Outcome<+E> = Pass | Fail(error: E)
}
